=== FILE: README.md ===
# cr_trichome snapshot pipeline — Dafny model

This project models the decision logic of the snapshot pipeline of
cr_trichome (`python/cr_trichome/plot.py`), with the plotting, JSON and
process-pool libraries taken out. What remains is pure:

- **Latest run** (`get_last_output_path`): the lexicographically last entry
  of the search folder; an empty folder raises.
- **Iteration discovery** (`get_all_iterations`): the folder names under
  `cells/json` read with `int()` and sorted ascending.
- **Zero-padded naming** (`"{:020}".format(n)`): the iteration folders and the
  `snapshot-<n>.png` images.
- **Cell loading** (`load_cells`): `element[0]` of every `data` entry of every
  shard, concatenated, and each flat coordinate array reshaped into polygon
  vertices.
- **Colour branch** (`plot_cells`): the floor colour below the midpoint of the
  bounds, else the unclamped normalised parameter.
- **Skip-or-render** (`plot_cells_at_iter`): the images folder is created
  unless a file is in the way; an existing target is kept when `overwrite`
  is `False`; otherwise the cells are drawn and saved, which fails when the
  target is a folder.
- **Batch** (`plot_cells_at_all_iterations`): one job per iteration, results in
  iteration order, each job's result the one it would have had alone.

The filesystem is an explicit value, `Rendering.Disk`: a set of folders, a
map from file paths to images, and the shard files found in each iteration
folder. Folder listings are passed in as sequences of names. Paths are
sequences of components. Reals are exact `real`s. Each failure the
modelled code can raise is one constructor of `Errors.PlotError`, whose
comment names its Python exception class: three are `ValueError`s
(`NoFolderFound`, `InvalidLiteral`, `CannotReshape`), and `IndexOutOfRange`
stands for both `IndexError`s (an empty `element` list and a short
intracellular vector). The two entry points, `Rendering.PlotCellsAtIter`
and `Batch.PlotAll`, carry the code's default arguments as Dafny default
parameter values: `None` folders and no overwriting for both, an opaque
background for the single call and a transparent one for the batch. Failures of the operating system
itself are not modelled (see "Left out").

Modules: `Wrappers` (Option/Result), `Lexicographic` (Python's string order),
`Naming` (padding, parsing, snapshot paths), `Errors`, `Discovery`,
`Records`, `Colouring`, `Rendering`, `Batch`.

Behaviours of the code worth noting:

- Iteration names that parse to the same number are all kept. The code has
  no duplicate-iteration error (`Discovery.DuplicatesKept`).
- An explicit `save_path` is the folder the snapshot goes into. `images` is
  appended only to the default, `output_path / "images"`.
- An iteration with no record has no empty-iteration error. `pd.json_normalize([])`
  yields a table with no points column, so selecting that column raises
  `KeyError` (`Errors.MissingColumn`).
- The intracellular vector is not checked at load time. A vector with fewer
  than three values raises `IndexError` when the cell is coloured.
- Failures are not collected per iteration. The first failing job, in
  iteration order, is the exception of the whole batch.
- The bounds are never checked. Equal bounds divide by zero for a value at or
  above them, which numpy answers with a non-finite parameter rather than an
  exception; a skipped iteration never divides at all.
- `mkdir(parents=True, exist_ok=True)` still raises when a file is in the way:
  `FileExistsError` for a file named like the images folder,
  `NotADirectoryError` for a file among its ancestors. `savefig` onto a
  target that is a folder raises `IsADirectoryError`, after the cells were
  loaded.

## Model

| member | source | states |
|---|---|---|
| Lexicographic.CommonPrefixPreservesOrder | python/cr_trichome/plot.py:44 | Sorting path strings that share the search-folder prefix orders them as the bare names are ordered |
| Discovery.Last | python/cr_trichome/plot.py:44-48 | The chosen name is in the listing and is at least every entry in Python's string order |
| Discovery.LastIsUnique | python/cr_trichome/plot.py:44-48 | Any entry that is at least every other entry is the chosen one, so the choice equals `sorted(...)[-1]` |
| Discovery.LastOfFullPaths | python/cr_trichome/plot.py:44-48 | The last of the full path strings is the search prefix followed by the last bare name |
| Discovery.LatestRun | python/cr_trichome/plot.py:44-48 | Fails with the no-folder error exactly for an empty listing; otherwise returns the search folder joined with a listed name that is at least every listed name |
| Discovery.ResolveRun | python/cr_trichome/plot.py:143-144 | A given output folder is used as is; otherwise the run under `out/cr_trichome` whose name is at least every listed name, failing exactly when that folder is empty |
| Discovery.ParseAll | python/cr_trichome/plot.py:74 | Succeeds exactly when every name is a decimal numeral; then gives one value per name, in listing order, each the name's base-10 value; otherwise raises the invalid-literal error for the first name in listing order that is not a numeral |
| Discovery.Sort | python/cr_trichome/plot.py:74 | The result is ascending and a permutation of the input, duplicates kept |
| Discovery.SortedPermutationUnique | python/cr_trichome/plot.py:74 | Two ascending sequences with the same elements are equal, so the sort agrees with `np.sort` |
| Discovery.ListIterations | python/cr_trichome/plot.py:73-74 | Succeeds exactly when every folder name is a numeral; the result has one entry per folder, is ascending and is a permutation of the parsed names; otherwise the error names the first folder in listing order that is not a numeral |
| Discovery.ListPaddedNames | python/cr_trichome/plot.py:73-74 | Folders named with the 20-digit padding list back as exactly the sorted iterations |
| Discovery.DuplicatesKept | python/cr_trichome/plot.py:74 | The names `1` and `01` list as `[1, 1]`: duplicates are neither removed nor rejected |
| Naming.ParseDecimal | python/cr_trichome/plot.py:74 | `int()` of a numeral of `k` digits is below 10^k |
| Naming.ParseDigits | python/cr_trichome/plot.py:74 | `int()` reads the shortest decimal representation of a number back as that number |
| Naming.ParseIgnoresLeadingZeros | python/cr_trichome/plot.py:74 | `int()` gives the same value with any number of leading zeros |
| Naming.Pad | python/cr_trichome/plot.py:83 | The `{:020}` name, used for the shard folder here and for the snapshot name on line 148, is a decimal numeral of at least 20 characters |
| Naming.DigitsLength | python/cr_trichome/plot.py:83 | A number's decimal representation has at most `k` digits exactly when the number is below 10^k |
| Naming.PadWidth | python/cr_trichome/plot.py:83 | The padded name has exactly 20 characters if and only if the iteration is below 10^20 |
| Naming.PadRoundTrip | python/cr_trichome/plot.py:74 | The padded name is a decimal numeral and `int()` of it gives back the iteration |
| Naming.PadInjective | python/cr_trichome/plot.py:83 | Two iterations have the same padded name if and only if they are equal |
| Naming.SnapshotPathInjective | python/cr_trichome/plot.py:148 | Two iterations get the same `snapshot-<n>.png` path in a folder if and only if they are equal |
| Naming.IterationDirInjective | python/cr_trichome/plot.py:83 | Two iterations get the same `cells/json/<n>` folder if and only if they are equal |
| Records.Unwrap | python/cr_trichome/plot.py:86 | Fails with an index error exactly when some entry has an empty `element` list; otherwise one record per entry, in order, each its entry's first element |
| Records.Gather | python/cr_trichome/plot.py:82-86 | Fails exactly when some shard entry has no element; otherwise holds as many records as there are `data` entries in all shards |
| Records.GatherPlacesEntries | python/cr_trichome/plot.py:82-86 | Entry `i` of shard `j` lands at the shard's offset plus `i`: shard order and order within a shard are kept |
| Records.Reshape | python/cr_trichome/plot.py:88-90 | Fails exactly on an odd-length array; otherwise yields half as many points as coordinates |
| Records.ReshapePairs | python/cr_trichome/plot.py:89 | Point `i` pairs coordinate `i` with coordinate `n + i` |
| Records.ReshapeThenFlatten | python/cr_trichome/plot.py:88-90 | Flattening the points, all x then all y, gives back the coordinate array |
| Records.FlattenThenReshape | python/cr_trichome/plot.py:88-90 | Reshaping a flattened point list gives back the points |
| Records.ReshapeAll | python/cr_trichome/plot.py:88-91 | Fails exactly when some record has an odd coordinate count, with the reshape error reporting the size of the first such array in table order; otherwise one cell per record whose points flatten to the record's array and whose intracellular vector is kept |
| Records.LoadCells | python/cr_trichome/plot.py:77-92 | Succeeds exactly when all entries are wrapped, there is at least one record and every coordinate array has even length; an unwrapped entry raises the index error, zero records the missing-column error, and otherwise only an odd array fails, with the reshape error reporting the size of the first odd array among the gathered records; each loaded cell matches its gathered record |
| Colouring.ShadeOf | python/cr_trichome/plot.py:97-102 | Floor colour exactly below the midpoint of the bounds; a non-finite parameter exactly when equal bounds divide by zero; otherwise the parameter maps back to the value linearly, and for ordered bounds is at least 1/2, equals 1 exactly at the upper bound and exceeds 1 beyond it |
| Colouring.PlotCells | python/cr_trichome/plot.py:95-104 | For any bounds: fails with the index error exactly when some cell has fewer than three intracellular values; otherwise one patch per cell, in order, outlined by the cell's points, floor-coloured exactly when its third value is below the midpoint, and coloured by the colour rule of that value |
| Colouring.ExampleShades | python/cr_trichome/plot.py:97-102 | With bounds 0 and 4: 1.9 gets the floor colour, 2 gets parameter 1/2, 4 gets parameter 1 |
| Rendering.MakeDirsError | python/cr_trichome/plot.py:147 | The creation fails only with the file-exists or not-a-directory error for the folder, and file-exists only when a file has the folder's own path |
| Rendering.MakeDirsErrorWhen | python/cr_trichome/plot.py:147 | The creation fails exactly when the folder or one of its ancestors is a file, and reports not-a-directory exactly when an ancestor is |
| Rendering.MakeDirs | python/cr_trichome/plot.py:147 | Existing folders stay and the requested folder exists afterwards |
| Rendering.MakeDirsCreates | python/cr_trichome/plot.py:147 | The folder and all its ancestors exist afterwards, every folder that existed still does, and nothing else is created |
| Rendering.MakeDirsErrorIgnoresDeeper | python/cr_trichome/plot.py:147-159 | Writing a file below the folder never makes a later creation of that folder fail |
| Rendering.SaveDir | python/cr_trichome/plot.py:145-146 | An explicit save folder is used as is; the default is the run folder followed by `images` |
| Rendering.SnapshotNotCreatedByMakeDirs | python/cr_trichome/plot.py:147-149 | Creating the images folder never creates a snapshot path, so the existence check sees the target as it was before the call |
| Rendering.MakeDirsIdempotent | python/cr_trichome/plot.py:147 | Creating an existing folder again changes nothing |
| Rendering.MakeDirsCommute | python/cr_trichome/plot.py:147 | Folder creation by two workers gives the same folders in either order |
| Rendering.Draw | python/cr_trichome/plot.py:151-157 | A loading failure is passed on unchanged; after a successful load drawing fails exactly on a short intracellular vector, with the index error; the patches are one per loaded record, in shard order, each outlined by the reshape of its record's coordinates and coloured by the colour rule of its third intracellular value |
| Rendering.Render | python/cr_trichome/plot.py:151-161 | Loads the cells; succeeds exactly when drawing succeeds and the target is not a folder, then stores the drawn image at the target; a drawing failure is passed on, a folder target raises the is-a-directory error, and on failure no file changes |
| Rendering.RunJob | python/cr_trichome/plot.py:145-161 | Nothing is deleted, the shard files are only read, and a returned path is the padded snapshot path, which exists afterwards |
| Rendering.RunJobBehaviour | python/cr_trichome/plot.py:145-161 | A file in the way of the images folder raises before anything else happens; otherwise the folder is created; an existing target without overwrite returns the target with no load and no write; otherwise the cells are loaded, success holds exactly when drawing succeeds and the target is not a folder, the drawing failure or the is-a-directory error is raised otherwise, and on success the target holds the drawn image; no other file changes |
| Rendering.RunJobKeepsConsistent | python/cr_trichome/plot.py:145-161 | A job never leaves a path that is both a folder and a file |
| Rendering.RunJobReads | python/cr_trichome/plot.py:147-151 | A job's result and whether it loads depend only on whether its folder can be created, whether its target is a folder or exists, and on the shard files |
| Rendering.RunJobFiles | python/cr_trichome/plot.py:159 | A job writes at most one file, its target, holding the drawn image |
| Rendering.PlotCellsAtIter | python/cr_trichome/plot.py:143-161 | With no run to resolve, fails before creating anything; otherwise it is exactly the job on the resolved run with the given arguments, and returns the padded snapshot path under the given folder or under `output/images`; omitted arguments take the defaults of plot.py:111-114 |
| Rendering.SecondCallSkips | python/cr_trichome/plot.py:149-150 | A second call without overwrite returns the same path, loads nothing and leaves the disk unchanged |
| Rendering.RerunSameResult | python/cr_trichome/plot.py:145-161 | Running the same job again, with or without overwrite, returns what the first run returned |
| Rendering.JobResultUnaffected | python/cr_trichome/plot.py:145-161 | A job for another iteration in the same folder does not change a job's result or whether it loads |
| Rendering.JobsCommute | python/cr_trichome/plot.py:145-161 | Two jobs for different iterations in the same folder give the same results and the same disk in either order |
| Batch.MakeJobs | python/cr_trichome/plot.py:180-188 | One job per iteration, at the same position, all with the same bounds, folders and flags |
| Batch.Collect | python/cr_trichome/plot.py:190 | Collecting the ordered results gives one path per job when it succeeds |
| Batch.CollectMeaning | python/cr_trichome/plot.py:190 | Collecting succeeds exactly when every result is a path, keeping each at its position; otherwise it raises the first exception in list order |
| Batch.AloneResultsMeaning | python/cr_trichome/plot.py:180-190 | The results the jobs would have alone, gathered: success exactly when every job alone succeeds, then each job's path at its position; otherwise the exception of the first failing job |
| Batch.FirstJobLeavesRest | python/cr_trichome/plot.py:180-190 | In a job list that differs only in iterations, running the first job leaves every later job's result as it would be alone |
| Batch.RunAll | python/cr_trichome/plot.py:189-190 | Nothing is removed and the shard files are only read |
| Batch.RunAllPaths | python/cr_trichome/plot.py:189-190 | On success entry `i` is job `i`'s snapshot path and exists; a failing first job is the batch's exception |
| Batch.RunAllMatchesAlone | python/cr_trichome/plot.py:180-190 | For jobs that differ only in iterations, the batch returns exactly the gathered results each job would have had alone: it succeeds exactly when every job alone succeeds, otherwise raises the first such job's exception |
| Batch.RunIterations | python/cr_trichome/plot.py:180-190 | One job per iteration: the result is the jobs' results alone, gathered, and on success entry `i` is the existing snapshot path of iteration `i` |
| Batch.PlotAll | python/cr_trichome/plot.py:169-190 | Fails without touching the disk when no run is found, or when a folder name is not a numeral, naming the first such folder in listing order; otherwise returns exactly the gathered results each iteration's job would have alone, so it succeeds exactly when every iteration renders or skips alone; on success one existing snapshot path per discovered iteration, entry `i` for the `i`-th iteration in ascending order; omitted arguments take the defaults of plot.py:172-175, so the batch saves transparent images by default |
| Batch.BatchPathsOrdered | python/cr_trichome/plot.py:179-190 | The batch's entries follow ascending iterations, and two entries coincide only for equal iterations |

## Left out

- Drawing with matplotlib (figure, 800×800 limits, `Polygon` patches, `tight_layout`, `savefig`, `close`). It is library rendering. Saving is modelled as storing the patch list and the transparency flag at the target path.
- The viridis lookup. Only its argument is modelled: index 0, the normalised real, or a non-finite value.
- Floating-point rounding. Values are exact reals.
- Colouring.ShadeOf: with equal bounds, a value at or above them divides by zero, giving infinity for a value above the bounds and NaN for a value equal to them. Both are one `NonFinite` shade here, and what viridis draws for them is not modelled.
- `json.load` and `pd.json_normalize`. Records arrive as parsed values with a points array and an intracellular vector. Extra fields and missing keys, which pandas fills with NaN, are not modelled.
- `glob` and directory traversal. Listings are input sequences. `glob`'s `*` also matches plain files and skips dot-files; that filtering is not modelled.
- Discovery.ParseAll: accepts only non-empty ASCII digit strings. Python's `int()` also accepts a sign, surrounding whitespace, underscores between digits and non-ASCII Unicode decimal digits (Arabic-Indic or full-width digits, for example); such names are treated as invalid here.
- `multiprocessing.Pool` and `tqdm`. The jobs run one after the other, and `imap`'s ordered results make this the same list. Jobs for distinct iterations commute (`Rendering.JobsCommute`). With duplicate iterations, two workers may write the same snapshot file at the same time; that race is not modelled, and run one after the other the second job returns what the first did (`Rendering.RerunSameResult`).
- Batch.RunAll: runs every job, then reports the first failure in iteration order. How many later jobs a real pool finishes before the exception reaches the caller is not modelled.
- Rendering.RunJob: `overwrite` is a `bool`. The code skips only when `overwrite is False`, an identity test, so other false values (`0`, `None`, `np.False_`) re-render an existing target; they are not modelled.
- Rendering.RunJob: the iteration is a natural number. A negative iteration, which `"{:020}"` writes with a leading minus sign (`-0000000000000000003`), is not modelled; `Discovery.ParseAll` never produces one.
- Rendering.RunJob: operating-system failures other than a file or folder in the way (permissions, a full disk, an unreadable shard file) are not modelled.
- `scripts/run_sim.py`. It only builds settings, calls the simulation engine and starts the batch.

=== FILE: batch.dfy ===
/** Rendering every iteration of a run (`plot_cells_at_all_iterations`). The
    worker pool's `imap` hands results back in submission order, so the batch
    is the ordered map of the single-iteration job over the sorted iteration
    listing; the jobs run one after the other on the shared disk. */
module Batch {
  import opened Wrappers
  import opened Naming
  import opened Errors
  import opened Discovery
  import opened Rendering

  /** The job list: one job per iteration, all with the same bounds, folders
      and flags. */
  function MakeJobs(
    iterations: seq<nat>, low: real, high: real, output: Path,
    save: Option<Path>, overwrite: bool, transparent: bool): (jobs: seq<Job>)
    ensures |jobs| == |iterations|
    ensures forall i :: 0 <= i < |jobs| ==>
      jobs[i].iteration == iterations[i] && jobs[i].low == low && jobs[i].high == high
      && jobs[i].output == output && jobs[i].save == save
      && jobs[i].overwrite == overwrite && jobs[i].transparent == transparent
  {
    if |iterations| == 0 then []
    else
      [Job(iterations[0], low, high, output, save, overwrite, transparent)]
        + MakeJobs(iterations[1..], low, high, output, save, overwrite, transparent)
  }

  datatype BatchOutcome = BatchOutcome(disk: Disk, result: Result<seq<Path>, PlotError>)

  /** Two jobs that differ at most in their iteration. */
  predicate SameSettings(a: Job, b: Job) {
    && a.low == b.low && a.high == b.high && a.output == b.output
    && a.save == b.save && a.overwrite == b.overwrite && a.transparent == b.transparent
  }

  /** A job list as the batch builds it: every job has the settings of the first. */
  predicate Uniform(jobs: seq<Job>) {
    forall i :: 0 <= i < |jobs| ==> SameSettings(jobs[0], jobs[i])
  }

  /** One job's result put in front of the rest's: an exception of the
      earlier job wins. */
  function Prepend(first: Result<Path, PlotError>, rest: Result<seq<Path>, PlotError>): Result<seq<Path>, PlotError> {
    match first
    case Err(e) => Err(e)
    case Ok(p) =>
      match rest
      case Err(e) => Err(e)
      case Ok(ps) => Ok([p] + ps)
  }

  /** The results of the jobs gathered in list order, as `list(pool.imap(...))`
      collects them. */
  function Collect(rs: seq<Result<Path, PlotError>>): (r: Result<seq<Path>, PlotError>)
    ensures r.Ok? ==> |r.value| == |rs|
  {
    if |rs| == 0 then Ok([]) else Prepend(rs[0], Collect(rs[1..]))
  }

  /** Collecting succeeds exactly when every result is a path, and then
      keeps each at its position; otherwise the first exception in list
      order is raised. */
  lemma {:induction false} CollectMeaning(rs: seq<Result<Path, PlotError>>)
    ensures Collect(rs).Ok? <==> forall i :: 0 <= i < |rs| ==> rs[i].Ok?
    ensures Collect(rs).Ok? ==> forall i :: 0 <= i < |rs| ==> Collect(rs).value[i] == rs[i].value
    ensures Collect(rs).Err? ==>
      exists i :: 0 <= i < |rs| && rs[i] == Err(Collect(rs).error) && (forall j :: 0 <= j < i ==> rs[j].Ok?)
  {
    if |rs| > 0 {
      CollectMeaning(rs[1..]);
      assert forall i :: 0 <= i < |rs| - 1 ==> rs[1..][i] == rs[i + 1];
      if rs[0].Ok? && Collect(rs[1..]).Err? {
        var i :| 0 <= i < |rs[1..]| && rs[1..][i] == Err(Collect(rs[1..]).error)
          && (forall j :: 0 <= j < i ==> rs[1..][j].Ok?);
        assert rs[i + 1] == Err(Collect(rs).error);
      }
    }
  }

  /** What each job would return if it ran alone on `disk`. */
  function AloneEach(disk: Disk, jobs: seq<Job>): (rs: seq<Result<Path, PlotError>>)
    ensures |rs| == |jobs|
  {
    seq(|jobs|, i requires 0 <= i < |jobs| => RunJob(disk, jobs[i]).result)
  }

  /** The results each job would have if it ran alone on `disk`, gathered in
      list order. */
  function AloneResults(disk: Disk, jobs: seq<Job>): Result<seq<Path>, PlotError> {
    Collect(AloneEach(disk, jobs))
  }

  /** The gathered results succeed exactly when every job alone succeeds,
      and then hold each job's path at its position; otherwise the first
      failing job in list order decides the exception. */
  lemma AloneResultsMeaning(disk: Disk, jobs: seq<Job>)
    ensures AloneResults(disk, jobs).Ok? <==> forall i :: 0 <= i < |jobs| ==> RunJob(disk, jobs[i]).result.Ok?
    ensures AloneResults(disk, jobs).Ok? ==> |AloneResults(disk, jobs).value| == |jobs|
    ensures AloneResults(disk, jobs).Ok? ==>
      forall i :: 0 <= i < |jobs| ==> AloneResults(disk, jobs).value[i] == RunJob(disk, jobs[i]).result.value
    ensures AloneResults(disk, jobs).Err? ==>
      exists i :: 0 <= i < |jobs| && RunJob(disk, jobs[i]).result == Err(AloneResults(disk, jobs).error)
        && (forall j :: 0 <= j < i ==> RunJob(disk, jobs[j]).result.Ok?)
  {
    var rs := AloneEach(disk, jobs);
    CollectMeaning(rs);
    assert forall i :: 0 <= i < |jobs| ==> rs[i] == RunJob(disk, jobs[i]).result;
  }

  /** In a uniform list, running the first job leaves every later job's
      result as it would be alone: a different iteration has a different
      target in the same folder, and the same iteration is the same job run
      again. So the gathered results are the first job's in front of the
      rest's, the rest running after the first. */
  lemma FirstJobLeavesRest(disk: Disk, jobs: seq<Job>)
    requires |jobs| > 0 && Uniform(jobs)
    ensures Uniform(jobs[1..])
    ensures AloneResults(disk, jobs)
      == Prepend(RunJob(disk, jobs[0]).result, AloneResults(RunJob(disk, jobs[0]).disk, jobs[1..]))
  {
    var a := jobs[0];
    var after := RunJob(disk, a).disk;
    forall i | 0 <= i < |jobs[1..]|
      ensures RunJob(after, jobs[1..][i]).result == RunJob(disk, jobs[1..][i]).result
    {
      var b := jobs[i + 1];
      assert jobs[1..][i] == b && SameSettings(a, b);
      SnapshotPathInjective(SaveDir(a), a.iteration, b.iteration);
      if a.iteration == b.iteration {
        assert a == b;
        RerunSameResult(disk, a);
      } else {
        JobResultUnaffected(disk, a, b);
      }
    }
    assert AloneEach(after, jobs[1..]) == AloneEach(disk, jobs)[1..];
  }

  /** All jobs run one after the other on the shared disk, their results
      gathered in list order. Nothing is deleted along the way and the shard
      files are only read. */
  function RunAll(disk: Disk, jobs: seq<Job>): (o: BatchOutcome)
    ensures disk.dirs <= o.disk.dirs
    ensures disk.files.Keys <= o.disk.files.Keys
    ensures o.disk.shards == disk.shards
    decreases |jobs|
  {
    if |jobs| == 0 then BatchOutcome(disk, Ok([]))
    else
      var first := RunJob(disk, jobs[0]);
      var rest := RunAll(first.disk, jobs[1..]);
      BatchOutcome(rest.disk, Prepend(first.result, rest.result))
  }

  /** The batch returns one path per job, each the job's snapshot name and
      each existing afterwards, and the first job's exception, if any, is
      the one raised. */
  lemma {:induction false} RunAllPaths(disk: Disk, jobs: seq<Job>)
    ensures var o := RunAll(disk, jobs);
      && (o.result.Ok? ==> |o.result.value| == |jobs|)
      && (o.result.Ok? ==> forall i :: 0 <= i < |jobs| ==>
           o.result.value[i] == Target(jobs[i]) && Exists(o.disk, Target(jobs[i])))
      && (|jobs| > 0 && RunJob(disk, jobs[0]).result.Err? ==> o.result == Err(RunJob(disk, jobs[0]).result.error))
    decreases |jobs|
  {
    if |jobs| > 0 {
      var first := RunJob(disk, jobs[0]);
      var rest := RunAll(first.disk, jobs[1..]);
      RunAllPaths(first.disk, jobs[1..]);
      assert RunAll(disk, jobs) == BatchOutcome(rest.disk, Prepend(first.result, rest.result));
      if first.result.Ok? && rest.result.Ok? {
        assert Exists(rest.disk, Target(jobs[0]));
        assert forall i :: 1 <= i < |jobs| ==> jobs[1..][i - 1] == jobs[i];
      }
    }
  }

  /** Jobs sharing their settings do not disturb each other: the batch
      returns what each job would have returned alone. */
  lemma {:induction false} RunAllMatchesAlone(disk: Disk, jobs: seq<Job>)
    requires Uniform(jobs)
    ensures RunAll(disk, jobs).result == AloneResults(disk, jobs)
    decreases |jobs|
  {
    if |jobs| > 0 {
      FirstJobLeavesRest(disk, jobs);
      RunAllMatchesAlone(RunJob(disk, jobs[0]).disk, jobs[1..]);
    }
  }

  /** The pool stage of `plot_cells_at_all_iterations` once the run folder
      and its iterations are known: one job per iteration, all with the same
      settings, so each gets the result it would have had alone. */
  function RunIterations(
    disk: Disk, its: seq<nat>, low: real, high: real, output: Path,
    save: Option<Path>, overwrite: bool, transparent: bool): (o: BatchOutcome)
    ensures o.result == AloneResults(disk, MakeJobs(its, low, high, output, save, overwrite, transparent))
    ensures o.result.Ok? ==> |o.result.value| == |its|
    ensures o.result.Ok? ==> forall i :: 0 <= i < |its| ==>
      o.result.value[i] == SnapshotPath(save.GetOr(output + ["images"]), its[i]) && Exists(o.disk, o.result.value[i])
  {
    var jobs := MakeJobs(its, low, high, output, save, overwrite, transparent);
    assert forall i :: 0 <= i < |jobs| ==> Target(jobs[i]) == SnapshotPath(save.GetOr(output + ["images"]), its[i]);
    RunAllMatchesAlone(disk, jobs);
    RunAllPaths(disk, jobs);
    RunAll(disk, jobs)
  }

  /** `plot_cells_at_all_iterations`: resolve the run, list its iterations
      (the names under `cells/json`), and render them all. The defaults are
      the function's own, which differ from the single call's in one flag:
      the batch saves transparent images unless told otherwise. */
  function PlotAll(
    disk: Disk, runNames: seq<string>, iterationNames: seq<string>, low: real, high: real,
    output: Option<Path> := None, save: Option<Path> := None,
    overwrite: bool := false, transparent: bool := true): (o: BatchOutcome)
    ensures ResolveRun(output, runNames).Err? ==> o == BatchOutcome(disk, Err(NoFolderFound(DefaultSearchPath)))
    ensures ResolveRun(output, runNames).Ok? && ListIterations(iterationNames).Err? ==>
      o.disk == disk && o.result.Err? && RejectsFirst(iterationNames, o.result.error)
    ensures ResolveRun(output, runNames).Ok? && ListIterations(iterationNames).Ok? ==>
      o.result == AloneResults(disk, MakeJobs(ListIterations(iterationNames).value, low, high,
        ResolveRun(output, runNames).value, save, overwrite, transparent))
    ensures o.result.Ok? ==> ResolveRun(output, runNames).Ok? && ListIterations(iterationNames).Ok?
    ensures o.result.Ok? ==> |o.result.value| == |iterationNames|
    ensures o.result.Ok? ==>
      var its := ListIterations(iterationNames).value;
      var folder := save.GetOr(ResolveRun(output, runNames).value + ["images"]);
      forall i :: 0 <= i < |its| ==> o.result.value[i] == SnapshotPath(folder, its[i]) && Exists(o.disk, o.result.value[i])
  {
    match ResolveRun(output, runNames)
    case Err(e) => BatchOutcome(disk, Err(e))
    case Ok(out) =>
      match ListIterations(iterationNames)
      case Err(e) => BatchOutcome(disk, Err(e))
      case Ok(its) => RunIterations(disk, its, low, high, out, save, overwrite, transparent)
  }

  /** The batch's paths come in ascending iteration order and are pairwise
      distinct exactly when the parsed iterations are. */
  lemma BatchPathsOrdered(
    disk: Disk, low: real, high: real, output: Option<Path>, save: Option<Path>,
    overwrite: bool, transparent: bool, runNames: seq<string>, iterationNames: seq<string>,
    i: nat, j: nat)
    requires PlotAll(disk, runNames, iterationNames, low, high, output, save, overwrite, transparent).result.Ok?
    requires i < j < |iterationNames|
    ensures var its := ListIterations(iterationNames).value;
      var paths := PlotAll(disk, runNames, iterationNames, low, high, output, save, overwrite, transparent).result.value;
      its[i] <= its[j] && (paths[i] == paths[j] <==> its[i] == its[j])
  {
    var its := ListIterations(iterationNames).value;
    var folder := save.GetOr(ResolveRun(output, runNames).value + ["images"]);
    SnapshotPathInjective(folder, its[i], its[j]);
  }
}

=== FILE: colouring.dfy ===
/** The colour branch of `plot_cells`: which argument each cell's polygon
    passes to the colormap. The colormap lookup itself is not modelled. */
module Colouring {
  import opened Wrappers
  import opened Errors
  import opened Records

  /** The colormap argument: the integer index 0 (the floor colour), the
      normalised real parameter, or the infinite or NaN value numpy's float
      division produces when the two bounds coincide. */
  datatype Shade = Floor | Scaled(t: real) | NonFinite

  /** A filled polygon with its outline and its colormap argument. */
  datatype Patch = Patch(outline: seq<Point>, face: Shade)

  /** `thresh = intra_low + 0.5 * (intra_high - intra_low)`. */
  function Threshold(low: real, high: real): real {
    low + 0.5 * (high - low)
  }

  /** Scaling by a positive factor keeps the order of two reals. */
  lemma ScalePreservesOrder(a: real, b: real, d: real)
    requires d > 0.0
    ensures a < b <==> a * d < b * d
    ensures a == b <==> a * d == b * d
  {
    assert b * d - a * d == (b - a) * d;
  }

  /** `t` solves `t * d == e` for a positive `d`, and `e` is at least half
      of `d`: then `t` is at least one half and compares with 1 as `e` does
      with `d`. */
  lemma ParameterBounds(e: real, d: real, t: real)
    requires d > 0.0 && t * d == e && e >= 0.5 * d
    ensures t >= 0.5 && (t == 1.0 <==> e == d) && (t > 1.0 <==> e > d)
  {
    ScalePreservesOrder(t, 0.5, d);
    ScalePreservesOrder(t, 1.0, d);
    ScalePreservesOrder(1.0, t, d);
  }

  /** The colour of one value. The floor colour is chosen exactly below the
      midpoint of the two bounds; above it the parameter recovers the value
      by linear interpolation, is at least one half when the bounds are in
      order, reaches 1 exactly at the upper bound and goes past 1, unclamped,
      beyond it. With equal bounds a value at or above them divides by zero. */
  function ShadeOf(v: real, low: real, high: real): (s: Shade)
    ensures s.Floor? <==> 2.0 * v < low + high
    ensures s.NonFinite? <==> low == high && v >= low
    ensures s.Scaled? ==> low != high && low + s.t * (high - low) == v
    ensures s.Scaled? && low < high ==> s.t >= 0.5
    ensures s.Scaled? && low < high ==> (s.t == 1.0 <==> v == high)
    ensures s.Scaled? && low < high ==> (s.t > 1.0 <==> v > high)
  {
    if v < Threshold(low, high) then Floor
    else if low == high then NonFinite
    else
      var t := (v - low) / (high - low);
      assert t * (high - low) == v - low;
      assert low < high ==> t >= 0.5 && (t == 1.0 <==> v == high) && (t > 1.0 <==> v > high) by {
        if low < high {
          ParameterBounds(v - low, high - low, t);
        }
      }
      Scaled(t)
  }

  /** The loop of `plot_cells`: one patch per cell, in table order, outlined
      by the cell's points and coloured by `intracellular[2]`; a cell with
      fewer than three intracellular values raises. */
  function PlotCells(cells: seq<Cell>, low: real, high: real): (r: Result<seq<Patch>, PlotError>)
    ensures r.Ok? <==> forall i :: 0 <= i < |cells| ==> |cells[i].intracellular| > 2
    ensures r.Err? ==> r.error == IndexOutOfRange
    ensures r.Ok? ==> |r.value| == |cells|
    ensures r.Ok? ==> forall i :: 0 <= i < |cells| ==>
      && r.value[i].outline == cells[i].points
      && (r.value[i].face.Floor? <==> 2.0 * cells[i].intracellular[2] < low + high)
      && r.value[i].face == ShadeOf(cells[i].intracellular[2], low, high)
  {
    if |cells| == 0 then Ok([])
    else if |cells[0].intracellular| <= 2 then Err(IndexOutOfRange)
    else
      var rest :- PlotCells(cells[1..], low, high);
      var c := cells[0];
      Ok([Patch(c.points, ShadeOf(c.intracellular[2], low, high))] + rest)
  }

  /** With bounds 0 and 4: 1.9 is below the midpoint 2 and gets the floor
      colour, 2 gets parameter one half, 4 gets parameter 1. */
  lemma ExampleShades()
    ensures ShadeOf(1.9, 0.0, 4.0) == Floor
    ensures ShadeOf(2.0, 0.0, 4.0) == Scaled(0.5)
    ensures ShadeOf(4.0, 0.0, 4.0) == Scaled(1.0)
  {
  }
}

=== FILE: discovery.dfy ===
/** Finding the latest simulation run and the iterations recorded in it
    (`get_last_output_path`, `get_all_iterations`). */
module Discovery {
  import opened Wrappers
  import opened Lexicographic
  import opened Naming
  import opened Errors

  /** Default search folder `out/cr_trichome`. */
  const DefaultSearchPath: Path := ["out", "cr_trichome"]

  /** The lexicographically last name: what `sorted(names)[-1]` returns. */
  function Last(names: seq<string>): (r: string)
    requires |names| > 0
    ensures r in names
    ensures forall x :: x in names ==> LexLe(x, r)
  {
    if |names| == 1 then
      LexLeReflexive(names[0]);
      names[0]
    else
      var rest := Last(names[1..]);
      if LexLe(names[0], rest) then rest
      else
        LexLeTotal(names[0], rest);
        forall x | x in names[1..]
          ensures LexLe(x, names[0])
        {
          LexLeTransitive(x, rest, names[0]);
        }
        LexLeReflexive(names[0]);
        names[0]
  }

  /** Only one element of a listing is at least every other element, so the
      maximum found here is the last entry of the sorted listing. */
  lemma LastIsUnique(names: seq<string>, m: string)
    requires m in names
    requires forall x :: x in names ==> LexLe(x, m)
    ensures |names| > 0 && m == Last(names)
  {
    LexLeAntisymmetric(m, Last(names));
  }

  /** `glob` returns the run folders as full path strings sharing the
      prefix `search/`; the last of those is the prefix followed by the last
      bare name. */
  lemma LastOfFullPaths(prefix: string, names: seq<string>)
    requires |names| > 0
    ensures Last(seq(|names|, i requires 0 <= i < |names| => prefix + names[i])) == prefix + Last(names)
  {
    var full := seq(|names|, i requires 0 <= i < |names| => prefix + names[i]);
    var m := prefix + Last(names);
    var k :| 0 <= k < |names| && names[k] == Last(names);
    assert full[k] == m;
    forall x | x in full
      ensures LexLe(x, m)
    {
      var j :| 0 <= j < |full| && full[j] == x;
      CommonPrefixPreservesOrder(prefix, names[j], Last(names));
    }
    LastIsUnique(full, m);
  }

  /** `get_last_output_path(search)`: the newest run folder under `search`,
      given the names of the entries of `search`. */
  function LatestRun(search: Path, names: seq<string>): (r: Result<Path, PlotError>)
    ensures r.Err? <==> |names| == 0
    ensures r.Err? ==> r.error == NoFolderFound(search)
    ensures r.Ok? ==> |r.value| == |search| + 1 && r.value[..|search|] == search
    ensures r.Ok? ==> r.value[|search|] in names
    ensures r.Ok? ==> forall x :: x in names ==> LexLe(x, r.value[|search|])
  {
    if |names| == 0 then Err(NoFolderFound(search))
    else
      var last := Last(names);
      assert (search + [last])[..|search|] == search;
      Ok(search + [last])
  }

  /** The `output_path is None` default shared by every entry point: use the
      given run, or else the newest one under `out/cr_trichome`. */
  function ResolveRun(output: Option<Path>, runNames: seq<string>): (r: Result<Path, PlotError>)
    ensures output.Some? ==> r == Ok(output.value)
    ensures output.None? ==> (r.Err? <==> |runNames| == 0)
    ensures output.None? && r.Ok? ==>
      && |r.value| == |DefaultSearchPath| + 1
      && r.value[..|DefaultSearchPath|] == DefaultSearchPath
      && r.value[|DefaultSearchPath|] in runNames
      && forall x :: x in runNames ==> LexLe(x, r.value[|DefaultSearchPath|])
  {
    match output
    case Some(p) => Ok(p)
    case None => LatestRun(DefaultSearchPath, runNames)
  }

  /** The error `int()` raises for the first name in `names` that is not a
      decimal numeral, every earlier name being one. */
  predicate RejectsFirst(names: seq<string>, e: PlotError) {
    exists i :: 0 <= i < |names| && !IsDecimal(names[i]) && e == InvalidLiteral(names[i])
      && (forall j :: 0 <= j < i ==> IsDecimal(names[j]))
  }

  /** `int(name)` on every folder name, in listing order; the first name that
      is not a decimal numeral raises. */
  function ParseAll(names: seq<string>): (r: Result<seq<nat>, PlotError>)
    ensures r.Ok? <==> forall i :: 0 <= i < |names| ==> IsDecimal(names[i])
    ensures r.Ok? ==> |r.value| == |names|
    ensures r.Ok? ==> forall i :: 0 <= i < |names| ==> r.value[i] == ParseDecimal(names[i])
    ensures r.Err? ==> RejectsFirst(names, r.error)
  {
    if |names| == 0 then Ok([])
    else if !IsDecimal(names[0]) then Err(InvalidLiteral(names[0]))
    else
      assert forall i :: 0 <= i < |names| - 1 ==> names[1..][i] == names[i + 1];
      match ParseAll(names[1..])
      case Err(e) =>
        var i :| 0 <= i < |names[1..]| && !IsDecimal(names[1..][i]) && e == InvalidLiteral(names[1..][i])
          && (forall j :: 0 <= j < i ==> IsDecimal(names[1..][j]));
        assert forall j :: 0 <= j < i + 1 ==> IsDecimal(names[j]);
        Err(e)
      case Ok(rest) => Ok([ParseDecimal(names[0])] + rest)
  }

  predicate Sorted(s: seq<nat>) {
    forall i, j :: 0 <= i < j < |s| ==> s[i] <= s[j]
  }

  /** The head of an ascending sequence is its least element. */
  lemma SortedHeadIsLeast(s: seq<nat>, y: nat)
    requires Sorted(s) && y in multiset(s)
    ensures |s| > 0 && s[0] <= y
  {
    var j :| 0 <= j < |s| && s[j] == y;
  }

  /** Putting `h` in front of an ascending sequence whose elements are all at
      least `h` keeps it ascending. */
  lemma ConsSorted(h: nat, t: seq<nat>)
    requires Sorted(t)
    requires forall y :: y in multiset(t) ==> h <= y
    ensures Sorted([h] + t)
  {
    forall i, j | 0 <= i < j < |[h] + t|
      ensures ([h] + t)[i] <= ([h] + t)[j]
    {
      if i == 0 {
        assert t[j - 1] in multiset(t);
      }
    }
  }

  /** A value no greater than the head of an ascending sequence is below
      all of it. */
  lemma BelowHead(x: nat, s: seq<nat>)
    requires Sorted(s) && |s| > 0 && x <= s[0]
    ensures forall y :: y in multiset(s) ==> x <= y
  {
    forall y | y in multiset(s) ensures x <= y {
      SortedHeadIsLeast(s, y);
    }
  }

  /** The head of an ascending sequence is below its tail with any larger
      value added. */
  lemma HeadBelowRest(s: seq<nat>, x: nat, rest: seq<nat>)
    requires Sorted(s) && |s| > 0 && s[0] < x
    requires multiset(rest) == multiset(s[1..]) + multiset{x}
    ensures forall y :: y in multiset(rest) ==> s[0] <= y
  {
    TailMultiset(s);
    forall y | y in multiset(rest) ensures s[0] <= y {
      if y != x {
        assert y in multiset(s);
        SortedHeadIsLeast(s, y);
      }
    }
  }

  /** The tail of an ascending sequence is ascending. */
  lemma SortedTail(s: seq<nat>)
    requires Sorted(s) && |s| > 0
    ensures Sorted(s[1..])
  {
    assert forall i :: 0 <= i < |s| - 1 ==> s[1..][i] == s[i + 1];
  }

  function Insert(x: nat, s: seq<nat>): (r: seq<nat>)
    requires Sorted(s)
    ensures Sorted(r)
    ensures multiset(r) == multiset(s) + multiset{x}
  {
    if |s| == 0 then [x]
    else if x <= s[0] then
      BelowHead(x, s);
      ConsSorted(x, s);
      [x] + s
    else
      SortedTail(s);
      var tail := Insert(x, s[1..]);
      HeadBelowRest(s, x, tail);
      ConsSorted(s[0], tail);
      TailMultiset(s);
      [s[0]] + tail
  }

  /** `np.sort`: ascending, every element kept with its multiplicity. */
  function Sort(s: seq<nat>): (r: seq<nat>)
    ensures Sorted(r)
    ensures multiset(r) == multiset(s)
  {
    if |s| == 0 then []
    else
      assert s == [s[0]] + s[1..];
      Insert(s[0], Sort(s[1..]))
  }

  /** Dropping the head of a sequence removes one copy of it. */
  lemma TailMultiset(s: seq<nat>)
    requires |s| > 0
    ensures multiset(s[1..]) == multiset(s) - multiset{s[0]}
  {
    assert s == [s[0]] + s[1..];
  }

  /** Two ascending sequences with the same elements start alike. */
  lemma SortedSameHead(a: seq<nat>, b: seq<nat>)
    requires Sorted(a) && Sorted(b) && |a| > 0 && |b| > 0
    requires multiset(a) == multiset(b)
    ensures a[0] == b[0]
  {
    assert a[0] in multiset(b);
    assert b[0] in multiset(a);
    SortedHeadIsLeast(b, a[0]);
    SortedHeadIsLeast(a, b[0]);
  }

  /** There is only one ascending arrangement of a multiset, so `Sort`
      agrees with any other sorting routine. */
  lemma {:induction false} SortedPermutationUnique(a: seq<nat>, b: seq<nat>)
    requires Sorted(a) && Sorted(b)
    requires multiset(a) == multiset(b)
    ensures a == b
    decreases |a|
  {
    assert |a| == |multiset(a)| == |multiset(b)| == |b|;
    if |a| > 0 {
      SortedSameHead(a, b);
      TailMultiset(a);
      TailMultiset(b);
      SortedTail(a);
      SortedTail(b);
      SortedPermutationUnique(a[1..], b[1..]);
      assert a == [a[0]] + a[1..] && b == [b[0]] + b[1..];
    }
  }

  /** `get_all_iterations(output_path)`, given the names found under
      `output_path/cells/json`: the parsed names in ascending order. */
  function ListIterations(names: seq<string>): (r: Result<seq<nat>, PlotError>)
    ensures r.Ok? <==> forall i :: 0 <= i < |names| ==> IsDecimal(names[i])
    ensures r.Ok? ==> |r.value| == |names| && Sorted(r.value)
    ensures r.Ok? ==> multiset(r.value) == multiset(ParseAll(names).value)
    ensures r.Err? ==> RejectsFirst(names, r.error)
  {
    var parsed :- ParseAll(names);
    var sorted := Sort(parsed);
    assert |sorted| == |multiset(sorted)| == |multiset(parsed)| == |parsed|;
    Ok(sorted)
  }

  /** Iteration folders written with the zero-padded format list back as the
      iterations themselves, sorted. */
  lemma ListPaddedNames(ns: seq<nat>)
    ensures ListIterations(seq(|ns|, i requires 0 <= i < |ns| => Pad(ns[i]))) == Ok(Sort(ns))
  {
    var names := seq(|ns|, i requires 0 <= i < |ns| => Pad(ns[i]));
    forall i | 0 <= i < |ns|
      ensures IsDecimal(names[i]) && ParseDecimal(names[i]) == ns[i]
    {
      PadRoundTrip(ns[i]);
    }
    assert ParseAll(names).value == ns;
  }

  /** Two folder names that parse to the same number are both kept: the
      listing is not deduplicated and no error is raised. */
  lemma DuplicatesKept()
    ensures ListIterations(["1", "01"]) == Ok([1, 1])
  {
    assert ParseDecimal("1") == 1 by {
      assert "1"[..0] == [];
    }
    assert ParseDecimal("01") == 1 by {
      assert "01"[..1] == "0";
      assert "0"[..0] == [];
    }
    assert ParseAll(["1", "01"]).value == [1, 1];
    SortedPermutationUnique(Sort([1, 1]), [1, 1]);
  }
}

=== FILE: errors.dfy ===
/** The exceptions the modelled code raises, one constructor per kind of
    failure; `IndexOutOfRange` stands for both of the code's `IndexError`s. */
module Errors {
  import opened Naming

  datatype PlotError =
    | NoFolderFound(searchPath: Path)   // ValueError: the run folder is empty
    | InvalidLiteral(name: string)      // ValueError from int() on a folder name
    | IndexOutOfRange                   // IndexError: `element[0]` or `intracellular[2]`
    | MissingColumn(column: string)     // KeyError: no record was loaded, so no points column
    | CannotReshape(size: nat)          // ValueError: odd coordinate count for reshape((2, -1))
    | FileExists(path: Path)            // FileExistsError: mkdir finds a file where the folder goes
    | NotADirectory(path: Path)         // NotADirectoryError: mkdir finds a file among the ancestors
    | IsADirectory(path: Path)          // IsADirectoryError: savefig targets an existing folder
}

=== FILE: lexicographic.dfy ===
/** The ordering Python's `sorted` uses on `str`: compare code points from the
    left; at the first difference the smaller code point wins, and a proper
    prefix comes before every extension of it. */
module Lexicographic {

  /** `a <= b` in Python's string order. */
  predicate LexLe(a: string, b: string)
    decreases |a|
  {
    |a| == 0 || (|b| > 0 && (a[0] < b[0] || (a[0] == b[0] && LexLe(a[1..], b[1..]))))
  }

  lemma {:induction false} LexLeReflexive(a: string)
    ensures LexLe(a, a)
    decreases |a|
  {
    if |a| > 0 {
      LexLeReflexive(a[1..]);
    }
  }

  lemma {:induction false} LexLeAntisymmetric(a: string, b: string)
    requires LexLe(a, b) && LexLe(b, a)
    ensures a == b
    decreases |a|
  {
    if |a| > 0 {
      LexLeAntisymmetric(a[1..], b[1..]);
      assert a == [a[0]] + a[1..] && b == [b[0]] + b[1..];
    }
  }

  lemma {:induction false} LexLeTransitive(a: string, b: string, c: string)
    requires LexLe(a, b) && LexLe(b, c)
    ensures LexLe(a, c)
    decreases |a|
  {
    if |a| > 0 && a[0] == b[0] && b[0] == c[0] {
      LexLeTransitive(a[1..], b[1..], c[1..]);
    }
  }

  lemma {:induction false} LexLeTotal(a: string, b: string)
    ensures LexLe(a, b) || LexLe(b, a)
    decreases |a|
  {
    if |a| > 0 && |b| > 0 && a[0] == b[0] {
      LexLeTotal(a[1..], b[1..]);
    }
  }

  /** Sorting full path strings that share the directory prefix orders them
      exactly as sorting the bare names would. */
  lemma {:induction false} CommonPrefixPreservesOrder(p: string, a: string, b: string)
    ensures LexLe(p + a, p + b) <==> LexLe(a, b)
    decreases |p|
  {
    if |p| > 0 {
      assert (p + a)[1..] == p[1..] + a;
      assert (p + b)[1..] == p[1..] + b;
      CommonPrefixPreservesOrder(p[1..], a, b);
    } else {
      assert p + a == a && p + b == b;
    }
  }
}

=== FILE: naming.dfy ===
/** Iteration names on disk: Python's `"{:020}".format(n)` for the iteration
    directories and the `snapshot-<n>.png` images, and `int(name)` reading a
    directory name back. Paths are sequences of components, so `p / "x"` is
    `p + ["x"]`. */
module Naming {

  type Path = seq<string>

  /** Number of digits the zero-padded format pads up to. */
  const Width: nat := 20

  function Pow10(k: nat): (r: nat)
    ensures r >= 1
  {
    if k == 0 then 1 else 10 * Pow10(k - 1)
  }

  predicate IsDigit(c: char) {
    '0' <= c <= '9'
  }

  predicate AllDigits(s: string) {
    forall i :: 0 <= i < |s| ==> IsDigit(s[i])
  }

  /** The names this model lets `int()` accept: a non-empty run of decimal digits. */
  predicate IsDecimal(s: string) {
    |s| > 0 && AllDigits(s)
  }

  function DigitChar(d: nat): (c: char)
    requires d < 10
    ensures IsDigit(c)
  {
    (('0' as int) + d) as char
  }

  function DigitValue(c: char): (d: nat)
    requires IsDigit(c)
    ensures d < 10
  {
    (c as int) - ('0' as int)
  }

  /** Base-10 value of a digit string, most significant digit first. */
  function ParseDecimal(s: string): (n: nat)
    requires AllDigits(s)
    ensures n < Pow10(|s|)
  {
    if |s| == 0 then 0
    else
      var prefix := ParseDecimal(s[..|s| - 1]);
      assert Pow10(|s|) == 10 * Pow10(|s| - 1);
      10 * prefix + DigitValue(s[|s| - 1])
  }

  /** Shortest decimal representation of `n` (what `str(n)` gives). */
  function Digits(n: nat): (s: string)
    ensures IsDecimal(s)
  {
    if n < 10 then [DigitChar(n)] else Digits(n / 10) + [DigitChar(n % 10)]
  }

  function Zeros(k: nat): (s: string)
    ensures |s| == k && AllDigits(s)
  {
    seq(k, _ => '0')
  }

  /** `"{:020}".format(n)`: left-padded with zeros to 20 characters; a number
      with more than 20 digits is written in full. */
  function Pad(n: nat): (s: string)
    ensures IsDecimal(s) && |s| >= Width
  {
    var d := Digits(n);
    if |d| >= Width then d else Zeros(Width - |d|) + d
  }

  /** Name of the snapshot image for iteration `n`. */
  function SnapshotName(n: nat): string {
    "snapshot-" + Pad(n) + ".png"
  }

  /** `save_path / "snapshot-{:020}.png".format(n)`. */
  function SnapshotPath(save: Path, n: nat): Path {
    save + [SnapshotName(n)]
  }

  /** `output_path / "cells/json/{:020}".format(n)`: the folder holding the
      shards of iteration `n`. */
  function IterationDir(output: Path, n: nat): Path {
    output + ["cells", "json", Pad(n)]
  }

  lemma {:induction false} ParseDigits(n: nat)
    ensures ParseDecimal(Digits(n)) == n
  {
    var d := Digits(n);
    if n >= 10 {
      assert d[..|d| - 1] == Digits(n / 10);
      ParseDigits(n / 10);
    } else {
      assert d[..0] == [];
    }
  }

  /** Leading zeros do not change the parsed value. */
  lemma {:induction false} ParseIgnoresLeadingZeros(k: nat, s: string)
    requires AllDigits(s)
    ensures ParseDecimal(Zeros(k) + s) == ParseDecimal(s)
    decreases |s|, k
  {
    var z := Zeros(k) + s;
    if |s| > 0 {
      assert z[..|z| - 1] == Zeros(k) + s[..|s| - 1];
      ParseIgnoresLeadingZeros(k, s[..|s| - 1]);
    } else if k > 0 {
      assert z == Zeros(k);
      assert z[..|z| - 1] == Zeros(k - 1) + [];
      ParseIgnoresLeadingZeros(k - 1, []);
    } else {
      assert z == [];
    }
  }

  /** `n` fits in `k` digits exactly when `n < 10^k`. */
  lemma {:induction false} DigitsLength(n: nat, k: nat)
    requires k >= 1
    ensures |Digits(n)| <= k <==> n < Pow10(k)
    decreases n
  {
    if n >= 10 {
      assert |Digits(n)| == |Digits(n / 10)| + 1;
      if k == 1 {
        assert Pow10(1) == 10;
      } else {
        DigitsLength(n / 10, k - 1);
        assert Pow10(k) == 10 * Pow10(k - 1);
        assert n / 10 < Pow10(k - 1) <==> n < 10 * Pow10(k - 1);
      }
    } else {
      assert Pow10(k) == 10 * Pow10(k - 1);
    }
  }

  /** The padded name is exactly 20 characters long precisely for the
      iterations below 10^20. */
  lemma PadWidth(n: nat)
    ensures |Pad(n)| == Width <==> n < Pow10(Width)
  {
    DigitsLength(n, Width);
  }

  /** Reading a padded name back with `int()` gives the iteration. */
  lemma PadRoundTrip(n: nat)
    ensures IsDecimal(Pad(n)) && ParseDecimal(Pad(n)) == n
  {
    var d := Digits(n);
    ParseDigits(n);
    if |d| < Width {
      ParseIgnoresLeadingZeros(Width - |d|, d);
    }
  }

  /** Two iterations never share a padded name. */
  lemma PadInjective(a: nat, b: nat)
    ensures Pad(a) == Pad(b) <==> a == b
  {
    PadRoundTrip(a);
    PadRoundTrip(b);
  }

  /** Two iterations never share a snapshot image in the same folder. */
  lemma SnapshotPathInjective(save: Path, a: nat, b: nat)
    ensures SnapshotPath(save, a) == SnapshotPath(save, b) <==> a == b
  {
    if SnapshotPath(save, a) == SnapshotPath(save, b) {
      var na, nb := SnapshotName(a), SnapshotName(b);
      assert na == SnapshotPath(save, a)[|save|];
      assert |na| == |nb|;
      assert Pad(a) == na[9..|na| - 4];
      assert Pad(b) == nb[9..|nb| - 4];
      PadInjective(a, b);
    }
  }

  /** Two iterations never share a shard folder. */
  lemma IterationDirInjective(output: Path, a: nat, b: nat)
    ensures IterationDir(output, a) == IterationDir(output, b) <==> a == b
  {
    if IterationDir(output, a) == IterationDir(output, b) {
      assert Pad(a) == IterationDir(output, a)[|output| + 2];
      PadInjective(a, b);
    }
  }
}

=== FILE: records.dfy ===
/** Loading one iteration's cells (`load_cells`): the records of every shard
    file are gathered in order, then each record's flat coordinate array is
    reshaped into polygon vertices. */
module Records {
  import opened Wrappers
  import opened Errors

  /** A cell record as `json.load` leaves it: `cell.mechanics.points` and
      `cell.intracellular` as flat numeric arrays. */
  datatype RawCell = RawCell(points: seq<real>, intracellular: seq<real>)

  /** One wrapped entry `{"element": [...]}`; only `element[0]` is used. */
  datatype Entry = Entry(element: seq<RawCell>)

  /** One shard file `{"data": [...]}`. */
  datatype Shard = Shard(data: seq<Entry>)

  datatype Point = Point(x: real, y: real)

  /** A row of the loaded table: the outline as points, and the
      intracellular vector unchanged. */
  datatype Cell = Cell(points: seq<Point>, intracellular: seq<real>)

  predicate WellWrapped(entries: seq<Entry>) {
    forall i :: 0 <= i < |entries| ==> |entries[i].element| > 0
  }

  predicate AllWellWrapped(shards: seq<Shard>) {
    forall j :: 0 <= j < |shards| ==> WellWrapped(shards[j].data)
  }

  /** Number of `data` entries in all shards together. */
  function EntryCount(shards: seq<Shard>): nat {
    if |shards| == 0 then 0 else |shards[0].data| + EntryCount(shards[1..])
  }

  /** Where shard `j`'s records start in the assembled list. */
  function Offset(shards: seq<Shard>, j: nat): nat
    requires j <= |shards|
  {
    EntryCount(shards[..j])
  }

  /** `[b["element"][0] for b in batch["data"]]` for one shard. */
  function Unwrap(entries: seq<Entry>): (r: Result<seq<RawCell>, PlotError>)
    ensures r.Ok? <==> WellWrapped(entries)
    ensures r.Err? ==> r.error == IndexOutOfRange
    ensures r.Ok? ==> |r.value| == |entries|
    ensures r.Ok? ==> forall i :: 0 <= i < |entries| ==> r.value[i] == entries[i].element[0]
  {
    if |entries| == 0 then Ok([])
    else if |entries[0].element| == 0 then Err(IndexOutOfRange)
    else
      var rest :- Unwrap(entries[1..]);
      Ok([entries[0].element[0]] + rest)
  }

  /** The `results.extend(...)` loop over the shard files, in the order
      they are listed. */
  function Gather(shards: seq<Shard>): (r: Result<seq<RawCell>, PlotError>)
    ensures r.Ok? <==> AllWellWrapped(shards)
    ensures r.Err? ==> r.error == IndexOutOfRange
    ensures r.Ok? ==> |r.value| == EntryCount(shards)
  {
    if |shards| == 0 then Ok([])
    else
      var first :- Unwrap(shards[0].data);
      var rest :- Gather(shards[1..]);
      assert forall j :: 0 < j < |shards| ==> shards[j] == shards[1..][j - 1];
      Ok(first + rest)
  }

  lemma EntryCountPrefix(shards: seq<Shard>, j: nat)
    requires 0 < j <= |shards|
    ensures EntryCount(shards[..j]) == |shards[0].data| + EntryCount(shards[1..][..j - 1])
  {
    assert shards[..j][1..] == shards[1..][..j - 1];
  }

  /** The record of entry `i` of shard `j` sits at position
      `Offset(shards, j) + i`: shards stay in order, and so do the entries
      within each shard. */
  lemma {:induction false} GatherPlacesEntries(shards: seq<Shard>, j: nat, i: nat)
    requires Gather(shards).Ok?
    requires j < |shards| && i < |shards[j].data|
    ensures Offset(shards, j) + i < |Gather(shards).value|
    ensures Gather(shards).value[Offset(shards, j) + i] == shards[j].data[i].element[0]
    decreases j
  {
    var first := Unwrap(shards[0].data).value;
    var rest := Gather(shards[1..]).value;
    assert Gather(shards).value == first + rest;
    if j == 0 {
      assert shards[..0] == [];
    } else {
      EntryCountPrefix(shards, j);
      assert shards[1..][j - 1] == shards[j];
      GatherPlacesEntries(shards[1..], j - 1, i);
      assert Offset(shards, j) == |first| + Offset(shards[1..], j - 1);
    }
  }

  /** `np.array(x).reshape((2, -1)).T`: the first half of the flat array is
      the x coordinates, the second half the y coordinates. */
  function Reshape(a: seq<real>): (r: Result<seq<Point>, PlotError>)
    ensures r.Ok? <==> |a| % 2 == 0
    ensures r.Err? ==> r.error == CannotReshape(|a|)
    ensures r.Ok? ==> 2 * |r.value| == |a|
  {
    if |a| % 2 != 0 then Err(CannotReshape(|a|))
    else
      var n := |a| / 2;
      Ok(seq(n, i requires 0 <= i < n => Point(a[i], a[n + i])))
  }

  /** Inverse of the reshape: all x coordinates, then all y coordinates. */
  function Flatten(ps: seq<Point>): (a: seq<real>)
    ensures |a| == 2 * |ps|
  {
    seq(|ps|, i requires 0 <= i < |ps| => ps[i].x) + seq(|ps|, i requires 0 <= i < |ps| => ps[i].y)
  }

  /** Vertex `i` pairs the `i`-th entry of each half. */
  lemma ReshapePairs(a: seq<real>, i: nat)
    requires Reshape(a).Ok? && i < |Reshape(a).value|
    ensures Reshape(a).value[i] == Point(a[i], a[|a| / 2 + i])
  {
  }

  lemma ReshapeThenFlatten(a: seq<real>)
    requires |a| % 2 == 0
    ensures Flatten(Reshape(a).value) == a
  {
    var f := Flatten(Reshape(a).value);
    forall k | 0 <= k < |a|
      ensures f[k] == a[k]
    {
      ReshapePairs(a, if k < |a| / 2 then k else k - |a| / 2);
    }
  }

  lemma FlattenThenReshape(ps: seq<Point>)
    ensures Reshape(Flatten(ps)) == Ok(ps)
  {
    var r := Reshape(Flatten(ps)).value;
    assert |r| == |ps|;
    forall i | 0 <= i < |ps|
      ensures r[i] == ps[i]
    {
      ReshapePairs(Flatten(ps), i);
    }
    assert r == ps;
  }

  /** The reshape error for the first record in `records` whose coordinate
      array has odd length, every earlier array being even. */
  predicate FirstOddRecord(records: seq<RawCell>, e: PlotError) {
    exists i :: 0 <= i < |records| && |records[i].points| % 2 != 0 && e == CannotReshape(|records[i].points|)
      && (forall j :: 0 <= j < i ==> |records[j].points| % 2 == 0)
  }

  /** Reshapes every record in order; the first odd-length array raises. */
  function ReshapeAll(records: seq<RawCell>): (r: Result<seq<Cell>, PlotError>)
    ensures r.Ok? <==> forall i :: 0 <= i < |records| ==> |records[i].points| % 2 == 0
    ensures r.Err? ==> FirstOddRecord(records, r.error)
    ensures r.Ok? ==> |r.value| == |records|
    ensures r.Ok? ==> forall i :: 0 <= i < |records| ==>
      && Flatten(r.value[i].points) == records[i].points
      && r.value[i].intracellular == records[i].intracellular
  {
    if |records| == 0 then Ok([])
    else
      var points :- Reshape(records[0].points);
      assert forall i :: 0 <= i < |records| - 1 ==> records[1..][i] == records[i + 1];
      match ReshapeAll(records[1..])
      case Err(e) =>
        var i :| 0 <= i < |records[1..]| && |records[1..][i].points| % 2 != 0
          && e == CannotReshape(|records[1..][i].points|)
          && (forall j :: 0 <= j < i ==> |records[1..][j].points| % 2 == 0);
        assert forall j :: 0 <= j < i + 1 ==> |records[j].points| % 2 == 0;
        Err(e)
      case Ok(rest) =>
        ReshapeThenFlatten(records[0].points);
        Ok([Cell(points, records[0].intracellular)] + rest)
  }

  /** Name of the column `pd.json_normalize` gives the points. */
  const PointsColumn: string := "cell.mechanics.points"

  /** `load_cells`, given the shard files found for the iteration. With no
      record at all the normalised table has no points column, and selecting
      it raises. */
  function LoadCells(shards: seq<Shard>): (r: Result<seq<Cell>, PlotError>)
    ensures r.Ok? <==>
      && AllWellWrapped(shards)
      && EntryCount(shards) > 0
      && forall k :: 0 <= k < |Gather(shards).value| ==> |Gather(shards).value[k].points| % 2 == 0
    ensures !AllWellWrapped(shards) ==> r == Err(IndexOutOfRange)
    ensures AllWellWrapped(shards) && EntryCount(shards) == 0 ==> r == Err(MissingColumn(PointsColumn))
    ensures AllWellWrapped(shards) && EntryCount(shards) > 0 && r.Err? ==> FirstOddRecord(Gather(shards).value, r.error)
    ensures r.Ok? ==> |r.value| == EntryCount(shards)
    ensures r.Ok? ==> forall k :: 0 <= k < |r.value| ==>
      && Flatten(r.value[k].points) == Gather(shards).value[k].points
      && r.value[k].intracellular == Gather(shards).value[k].intracellular
  {
    match Gather(shards)
    case Err(e) => Err(e)
    case Ok(records) =>
      if |records| == 0 then Err(MissingColumn(PointsColumn))
      else
        var r := ReshapeAll(records);
        assert records == Gather(shards).value;
        assert AllWellWrapped(shards);
        assert EntryCount(shards) > 0;
        assert r.Ok? <==> forall k :: 0 <= k < |records| ==> |records[k].points| % 2 == 0;
        r
  }
}

=== FILE: rendering.dfy ===
/** One iteration's snapshot (`plot_cells_at_iter`): the images folder is
    created, an existing target is kept unless overwriting is asked for, and
    otherwise the cells are loaded, drawn and saved under the zero-padded
    snapshot name. Drawing is abstract: saving stores the patch list. */
module Rendering {
  import opened Wrappers
  import opened Naming
  import opened Errors
  import opened Records
  import opened Colouring
  import opened Discovery

  /** What `savefig` leaves on disk, abstractly. */
  datatype Image = Image(patches: seq<Patch>, transparent: bool)

  /** The filesystem as the pipeline sees it: the folders, the files (by
      path), and the shard files `glob` finds in each iteration folder, in
      the order it lists them. */
  datatype Disk = Disk(dirs: set<Path>, files: map<Path, Image>, shards: map<Path, seq<Shard>>)

  /** No path is both a folder and a file. */
  predicate Consistent(disk: Disk) {
    disk.dirs !! disk.files.Keys
  }

  /** `Path.exists()`: true for folders as well as files. */
  predicate Exists(disk: Disk, p: Path) {
    p in disk.dirs || p in disk.files
  }

  /** The shard files `glob` lists in one folder; a missing folder matches nothing. */
  function ShardsAt(disk: Disk, dir: Path): seq<Shard> {
    if dir in disk.shards then disk.shards[dir] else []
  }

  /** Some proper ancestor of `p` is a file. */
  predicate AncestorIsFile(files: map<Path, Image>, p: Path) {
    exists k :: 1 <= k < |p| && p[..k] in files
  }

  /** The exception `mkdir(parents=True, exist_ok=True)` raises: a file
      among the ancestors stops the creation, and so does a file in place of
      the folder itself; an existing folder is no error. */
  function MakeDirsError(files: map<Path, Image>, p: Path): (e: Option<PlotError>)
    ensures e.Some? ==> e.value in {FileExists(p), NotADirectory(p)}
    ensures e == Some(FileExists(p)) ==> p in files
  {
    if AncestorIsFile(files, p) then Some(NotADirectory(p))
    else if |p| > 0 && p in files then Some(FileExists(p))
    else None
  }

  /** The creation fails exactly when the folder or one of its ancestors is
      a file, and it reports the folder itself as existing only when no
      ancestor is a file. */
  lemma MakeDirsErrorWhen(files: map<Path, Image>, p: Path)
    ensures MakeDirsError(files, p).None? <==> forall k :: 1 <= k <= |p| ==> p[..k] !in files
    ensures MakeDirsError(files, p) == Some(NotADirectory(p)) <==> exists k :: 1 <= k < |p| && p[..k] in files
  {
    if |p| > 0 {
      assert p[..|p|] == p;
    }
    assert forall k :: 1 <= k <= |p| ==> (k < |p| || p[..k] == p);
  }

  /** `mkdir(parents=True, exist_ok=True)` when it succeeds: the folder and
      its ancestors are added to the folders. */
  function MakeDirs(dirs: set<Path>, p: Path): (r: set<Path>)
    ensures dirs <= r
    ensures |p| > 0 ==> p in r
  {
    assert |p| > 0 ==> p == p[..|p|];
    dirs + set k | 1 <= k <= |p| :: p[..k]
  }

  /** After `mkdir(parents=True, exist_ok=True)` the folder and all its
      ancestors exist, every folder that existed still does, and nothing
      else is created. */
  lemma MakeDirsCreates(dirs: set<Path>, p: Path)
    ensures dirs <= MakeDirs(dirs, p)
    ensures |p| > 0 ==> p in MakeDirs(dirs, p)
    ensures forall k :: 1 <= k <= |p| ==> p[..k] in MakeDirs(dirs, p)
    ensures forall q :: q in MakeDirs(dirs, p) && q !in dirs ==> 0 < |q| <= |p| && q == p[..|q|]
  {
  }

  /** Creating a folder that exists changes nothing. */
  lemma MakeDirsIdempotent(dirs: set<Path>, p: Path)
    ensures MakeDirs(MakeDirs(dirs, p), p) == MakeDirs(dirs, p)
  {
  }

  /** Two workers creating folders in either order leave the same folders. */
  lemma MakeDirsCommute(dirs: set<Path>, p: Path, q: Path)
    ensures MakeDirs(MakeDirs(dirs, p), q) == MakeDirs(MakeDirs(dirs, q), p)
  {
  }

  /** A file deeper than `p` cannot make the creation of `p` fail. */
  lemma MakeDirsErrorIgnoresDeeper(files: map<Path, Image>, p: Path, t: Path, img: Image)
    requires |t| > |p|
    ensures MakeDirsError(files[t := img], p) == MakeDirsError(files, p)
  {
    assert forall k :: 1 <= k <= |p| ==> p[..k] != t;
  }

  /** One render job, the arguments `plot_cells_at_iter` receives once the
      run folder is known. */
  datatype Job = Job(
    iteration: nat,
    low: real,
    high: real,
    output: Path,
    save: Option<Path>,
    overwrite: bool,
    transparent: bool)

  /** `save_path`, defaulting to the `images` folder inside the run. */
  function SaveDir(job: Job): (p: Path)
    ensures job.save.Some? ==> p == job.save.value
    ensures job.save.None? ==> |p| == |job.output| + 1 && p[..|job.output|] == job.output && p[|job.output|] == "images"
  {
    match job.save
    case Some(p) => p
    case None =>
      assert (job.output + ["images"])[..|job.output|] == job.output;
      job.output + ["images"]
  }

  /** The snapshot image of the job. */
  function Target(job: Job): Path {
    SnapshotPath(SaveDir(job), job.iteration)
  }

  /** Loading the shards and colouring the cells: the patches that end up in
      the image, one per record in shard order, each outlined by its
      record's reshaped coordinates and coloured by its third intracellular
      value. A loading failure is passed on; otherwise only a short
      intracellular vector fails. */
  function Draw(shards: seq<Shard>, low: real, high: real): (r: Result<seq<Patch>, PlotError>)
    ensures r.Ok? ==> LoadCells(shards).Ok?
    ensures r.Ok? ==> |r.value| == EntryCount(shards) == |Gather(shards).value|
    ensures r.Ok? ==> forall k :: 0 <= k < |r.value| ==>
      && Flatten(r.value[k].outline) == Gather(shards).value[k].points
      && |Gather(shards).value[k].intracellular| > 2
      && r.value[k].face == ShadeOf(Gather(shards).value[k].intracellular[2], low, high)
    ensures LoadCells(shards).Err? ==> r == Err(LoadCells(shards).error)
    ensures LoadCells(shards).Ok? ==>
      (r.Ok? <==> forall k :: 0 <= k < |Gather(shards).value| ==> |Gather(shards).value[k].intracellular| > 2)
    ensures LoadCells(shards).Ok? && r.Err? ==> r.error == IndexOutOfRange
  {
    var cells :- LoadCells(shards);
    assert AllWellWrapped(shards);
    assert |cells| == |Gather(shards).value|;
    assert forall k :: 0 <= k < |cells| ==> cells[k].intracellular == Gather(shards).value[k].intracellular;
    PlotCells(cells, low, high)
  }

  /** The drawing a job produces from the shards of its iteration. */
  function JobDraw(disk: Disk, job: Job): Result<seq<Patch>, PlotError> {
    Draw(ShardsAt(disk, IterationDir(job.output, job.iteration)), job.low, job.high)
  }

  /** The image a job would save. */
  function JobImage(disk: Disk, job: Job): Image
    requires JobDraw(disk, job).Ok?
  {
    Image(JobDraw(disk, job).value, job.transparent)
  }

  /** The result of one call: the disk afterwards, the returned path or the
      exception, and whether the cells were loaded. */
  datatype Outcome = Outcome(disk: Disk, result: Result<Path, PlotError>, loaded: bool)

  /** The render branch: load and draw the cells, then save the image at
      `target`, which fails when `target` is a folder; on failure nothing is
      written. */
  function Render(made: Disk, shards: seq<Shard>, job: Job, target: Path): (o: Outcome)
    ensures o.loaded && o.disk.dirs == made.dirs && o.disk.shards == made.shards
    ensures o.result.Ok? <==> Draw(shards, job.low, job.high).Ok? && target !in made.dirs
    ensures Draw(shards, job.low, job.high).Err? ==> o.result == Err(Draw(shards, job.low, job.high).error)
    ensures Draw(shards, job.low, job.high).Ok? && target in made.dirs ==> o.result == Err(IsADirectory(target))
    ensures o.result.Ok? ==> o.result.value == target
    ensures o.result.Ok? ==> o.disk.files == made.files[target := Image(Draw(shards, job.low, job.high).value, job.transparent)]
    ensures o.result.Err? ==> o.disk.files == made.files
  {
    match Draw(shards, job.low, job.high)
    case Err(e) => Outcome(made, Err(e), true)
    case Ok(patches) =>
      if target in made.dirs then Outcome(made, Err(IsADirectory(target)), true)
      else Outcome(made.(files := made.files[target := Image(patches, job.transparent)]), Ok(target), true)
  }

  /** Creating the images folder never creates a snapshot path inside it,
      so the existence check sees the disk as it was. */
  lemma SnapshotNotCreatedByMakeDirs(disk: Disk, save: Path, n: nat)
    ensures SnapshotPath(save, n) in MakeDirs(disk.dirs, save) <==> SnapshotPath(save, n) in disk.dirs
    ensures Exists(disk.(dirs := MakeDirs(disk.dirs, save)), SnapshotPath(save, n)) <==> Exists(disk, SnapshotPath(save, n))
  {
    MakeDirsCreates(disk.dirs, save);
  }

  /** The skip-or-render decision of `plot_cells_at_iter`. Nothing is
      deleted, the shard files are only read, and a returned path is the
      zero-padded snapshot name, which then exists; `RunJobBehaviour`
      states the cases. */
  function RunJob(disk: Disk, job: Job): (o: Outcome)
    ensures disk.dirs <= o.disk.dirs && disk.files.Keys <= o.disk.files.Keys
    ensures o.disk.shards == disk.shards
    ensures o.result.Ok? ==> o.result.value == Target(job) && Exists(o.disk, Target(job))
  {
    var save := SaveDir(job);
    var target := SnapshotPath(save, job.iteration);
    match MakeDirsError(disk.files, save)
    case Some(e) => Outcome(disk, Err(e), false)
    case None =>
      var made := disk.(dirs := MakeDirs(disk.dirs, save));
      if Exists(made, target) && !job.overwrite then
        Outcome(made, Ok(target), false)
      else
        Render(made, ShardsAt(disk, IterationDir(job.output, job.iteration)), job, target)
  }

  /** The cases of one call: a file in the way of the images folder stops
      it before anything else; otherwise the folder is created, an existing
      target is kept unless overwriting (no load, no write), and in every
      other case the cells are loaded and drawn and the image is saved,
      unless drawing fails or the target is a folder. Only the target file
      is ever written. */
  lemma RunJobBehaviour(disk: Disk, job: Job)
    ensures var o := RunJob(disk, job);
      && (MakeDirsError(disk.files, SaveDir(job)).Some? ==>
            o == Outcome(disk, Err(MakeDirsError(disk.files, SaveDir(job)).value), false))
      && (MakeDirsError(disk.files, SaveDir(job)).None? ==> o.disk.dirs == MakeDirs(disk.dirs, SaveDir(job)))
      && (MakeDirsError(disk.files, SaveDir(job)).None? && Exists(disk, Target(job)) && !job.overwrite ==>
            !o.loaded && o.result == Ok(Target(job)) && o.disk.files == disk.files)
      && (MakeDirsError(disk.files, SaveDir(job)).None? && !(Exists(disk, Target(job)) && !job.overwrite) ==> o.loaded)
      && (o.loaded ==> (o.result.Ok? <==> JobDraw(disk, job).Ok? && Target(job) !in disk.dirs))
      && (o.loaded && JobDraw(disk, job).Err? ==> o.result == Err(JobDraw(disk, job).error))
      && (o.loaded && JobDraw(disk, job).Ok? && Target(job) in disk.dirs ==> o.result == Err(IsADirectory(Target(job))))
      && (o.loaded && o.result.Ok? ==> Target(job) in o.disk.files && o.disk.files[Target(job)] == JobImage(disk, job))
      && o.disk.files - {Target(job)} == disk.files - {Target(job)}
      && (o.result.Err? ==> o.disk.files == disk.files)
  {
    SnapshotNotCreatedByMakeDirs(disk, SaveDir(job), job.iteration);
  }

  /** A job never leaves a path that is both a folder and a file. */
  lemma RunJobKeepsConsistent(disk: Disk, job: Job)
    requires Consistent(disk)
    ensures Consistent(RunJob(disk, job).disk)
  {
    var save := SaveDir(job);
    var o := RunJob(disk, job);
    var t := Target(job);
    RunJobBehaviour(disk, job);
    if MakeDirsError(disk.files, save).None? {
      MakeDirsCreates(disk.dirs, save);
      MakeDirsErrorWhen(disk.files, save);
      forall q | q in o.disk.dirs
        ensures q !in o.disk.files
      {
        if q == t {
          // the target was a folder already, so nothing was written
          assert q in disk.dirs;
          assert o.disk.files == disk.files;
        } else {
          if q !in disk.dirs {
            assert q == save[..|q|];
          }
          assert q !in disk.files;
          assert q !in o.disk.files - {t};
        }
      }
    }
  }

  /** `plot_cells_at_iter` with its `output_path=None` default: the newest
      run under `out/cr_trichome` is used, and an empty search folder raises
      before anything is created; otherwise the call is the job on the
      resolved run. The defaults are the function's own: no output or save
      folder, no overwriting, an opaque background. */
  function PlotCellsAtIter(
    disk: Disk, runNames: seq<string>, iteration: nat, low: real, high: real,
    output: Option<Path> := None, save: Option<Path> := None,
    overwrite: bool := false, transparent: bool := false): (o: Outcome)
    ensures ResolveRun(output, runNames).Err? ==> o == Outcome(disk, Err(NoFolderFound(DefaultSearchPath)), false)
    ensures ResolveRun(output, runNames).Ok? ==>
      o == RunJob(disk, Job(iteration, low, high, ResolveRun(output, runNames).value, save, overwrite, transparent))
    ensures o.result.Ok? ==>
      o.result.value == SnapshotPath(save.GetOr(ResolveRun(output, runNames).value + ["images"]), iteration)
  {
    match ResolveRun(output, runNames)
    case Err(e) => Outcome(disk, Err(e), false)
    case Ok(out) => RunJob(disk, Job(iteration, low, high, out, save, overwrite, transparent))
  }

  /** What a job leaves unchanged for the paths below its folder other than
      its own target, and for the creation of its folder. */
  lemma JobLeavesOthers(disk: Disk, a: Job, t: Path)
    requires |t| > |SaveDir(a)| && t != Target(a)
    ensures RunJob(disk, a).disk.shards == disk.shards
    ensures MakeDirsError(RunJob(disk, a).disk.files, SaveDir(a)) == MakeDirsError(disk.files, SaveDir(a))
    ensures t in RunJob(disk, a).disk.dirs <==> t in disk.dirs
    ensures t in RunJob(disk, a).disk.files <==> t in disk.files
  {
    var o := RunJob(disk, a);
    MakeDirsCreates(disk.dirs, SaveDir(a));
    if o.disk.files != disk.files {
      MakeDirsErrorIgnoresDeeper(disk.files, SaveDir(a), Target(a), o.disk.files[Target(a)]);
      assert o.disk.files == disk.files[Target(a) := o.disk.files[Target(a)]];
    }
  }

  /** A job's result depends on the disk only through the creation of its
      folder, whether its target is a folder, whether its target exists
      (unless it overwrites anyway) and the shard files. */
  lemma RunJobReads(d1: Disk, d2: Disk, job: Job)
    requires d1.shards == d2.shards
    requires MakeDirsError(d1.files, SaveDir(job)) == MakeDirsError(d2.files, SaveDir(job))
    requires Target(job) in d1.dirs <==> Target(job) in d2.dirs
    requires job.overwrite || (Exists(d1, Target(job)) <==> Exists(d2, Target(job)))
    ensures RunJob(d1, job).result == RunJob(d2, job).result
    ensures RunJob(d1, job).loaded == RunJob(d2, job).loaded
  {
    SnapshotNotCreatedByMakeDirs(d1, SaveDir(job), job.iteration);
    SnapshotNotCreatedByMakeDirs(d2, SaveDir(job), job.iteration);
  }

  /** Calling twice without overwriting: the second call finds the image the
      first one left, returns the same path, loads nothing and changes
      nothing. */
  lemma SecondCallSkips(disk: Disk, job: Job)
    requires !job.overwrite
    requires RunJob(disk, job).result.Ok?
    ensures !RunJob(RunJob(disk, job).disk, job).loaded
    ensures RunJob(RunJob(disk, job).disk, job).result == RunJob(disk, job).result
    ensures RunJob(RunJob(disk, job).disk, job).disk == RunJob(disk, job).disk
  {
    var first := RunJob(disk, job);
    var save := SaveDir(job);
    MakeDirsIdempotent(disk.dirs, save);
    if first.disk.files != disk.files {
      MakeDirsErrorIgnoresDeeper(disk.files, save, Target(job), first.disk.files[Target(job)]);
      assert first.disk.files == disk.files[Target(job) := first.disk.files[Target(job)]];
    }
  }

  /** Running the same job again gives the same result as the first run,
      with or without overwriting. */
  lemma RerunSameResult(disk: Disk, job: Job)
    ensures RunJob(RunJob(disk, job).disk, job).result == RunJob(disk, job).result
  {
    var first := RunJob(disk, job);
    var save := SaveDir(job);
    if MakeDirsError(disk.files, save).None? {
      if !job.overwrite && first.result.Ok? {
        SecondCallSkips(disk, job);
      } else {
        if first.disk.files != disk.files {
          MakeDirsErrorIgnoresDeeper(disk.files, save, Target(job), first.disk.files[Target(job)]);
          assert first.disk.files == disk.files[Target(job) := first.disk.files[Target(job)]];
        }
        SnapshotNotCreatedByMakeDirs(disk, save, job.iteration);
        RunJobReads(first.disk, disk, job);
      }
    }
  }

  /** The files after writing `img` at `target` when `write` holds. */
  function WriteIf(files: map<Path, Image>, write: bool, target: Path, img: Image): map<Path, Image> {
    if write then files[target := img] else files
  }

  /** Writes to two different paths commute. */
  lemma WritesCommute(files: map<Path, Image>, w1: bool, t1: Path, i1: Image, w2: bool, t2: Path, i2: Image)
    requires t1 != t2
    ensures WriteIf(WriteIf(files, w1, t1, i1), w2, t2, i2) == WriteIf(WriteIf(files, w2, t2, i2), w1, t1, i1)
  {
  }

  /** What a job does to the files: at most one write, of the drawn image,
      at its target. */
  lemma RunJobFiles(disk: Disk, job: Job)
    ensures var o := RunJob(disk, job);
      && (o.loaded && o.result.Ok? ==> JobDraw(disk, job).Ok?)
      && o.disk.files == WriteIf(disk.files, o.loaded && o.result.Ok?, Target(job),
           if o.loaded && o.result.Ok? then JobImage(disk, job) else Image([], false))
  {
    RunJobBehaviour(disk, job);
  }

  /** The folders after a job: the images folder and its ancestors are
      added unless a file is in the way. */
  lemma RunJobDirs(disk: Disk, job: Job)
    ensures RunJob(disk, job).disk.dirs
      == if MakeDirsError(disk.files, SaveDir(job)).None? then MakeDirs(disk.dirs, SaveDir(job)) else disk.dirs
  {
  }

  /** Running job `b` after job `a` gives `b` the result it would have had
      alone, when the two have different targets in the same folder. */
  lemma JobResultUnaffected(disk: Disk, a: Job, b: Job)
    requires SaveDir(a) == SaveDir(b) && Target(a) != Target(b)
    ensures RunJob(RunJob(disk, a).disk, b).result == RunJob(disk, b).result
    ensures RunJob(RunJob(disk, a).disk, b).loaded == RunJob(disk, b).loaded
  {
    JobLeavesOthers(disk, a, Target(b));
    RunJobReads(RunJob(disk, a).disk, disk, b);
  }

  /** Two jobs for different iterations writing into the same folder do not
      interfere: running them in either order gives the same results and the
      same disk. */
  lemma JobsCommute(disk: Disk, a: Job, b: Job)
    requires SaveDir(a) == SaveDir(b) && a.iteration != b.iteration
    ensures RunJob(RunJob(disk, a).disk, b).disk == RunJob(RunJob(disk, b).disk, a).disk
    ensures RunJob(RunJob(disk, a).disk, b).result == RunJob(disk, b).result
    ensures RunJob(RunJob(disk, b).disk, a).result == RunJob(disk, a).result
  {
    var save := SaveDir(a);
    SnapshotPathInjective(save, a.iteration, b.iteration);
    JobResultUnaffected(disk, a, b);
    JobResultUnaffected(disk, b, a);
    JobLeavesOthers(disk, a, Target(b));
    JobLeavesOthers(disk, b, Target(a));
    var oa := RunJob(disk, a);
    var ob := RunJob(disk, b);
    var ab := RunJob(oa.disk, b);
    var ba := RunJob(ob.disk, a);
    MakeDirsIdempotent(disk.dirs, save);
    RunJobDirs(disk, a);
    RunJobDirs(disk, b);
    RunJobDirs(oa.disk, b);
    RunJobDirs(ob.disk, a);
    assert ab.disk.dirs == ba.disk.dirs;
    assert ab.disk.shards == ba.disk.shards;
    RunJobFiles(disk, a);
    RunJobFiles(disk, b);
    RunJobFiles(oa.disk, b);
    RunJobFiles(ob.disk, a);
    assert JobDraw(oa.disk, b) == JobDraw(disk, b) && JobDraw(ob.disk, a) == JobDraw(disk, a);
    var wa, wb := oa.loaded && oa.result.Ok?, ob.loaded && ob.result.Ok?;
    var ia := if wa then JobImage(disk, a) else Image([], false);
    var ib := if wb then JobImage(disk, b) else Image([], false);
    assert ab.disk.files == WriteIf(WriteIf(disk.files, wa, Target(a), ia), wb, Target(b), ib);
    assert ba.disk.files == WriteIf(WriteIf(disk.files, wb, Target(b), ib), wa, Target(a), ia);
    WritesCommute(disk.files, wa, Target(a), ia, wb, Target(b), ib);
  }
}

=== FILE: wrappers.dfy ===
/** Failure-compatible wrappers: an optional value, and a computation that
    either produces a value or fails the way the Python code raises. */
module Wrappers {

  datatype Option<+T> = None | Some(value: T) {

    /** The value, or `default` when there is none. */
    function GetOr(default: T): T {
      match this
      case Some(v) => v
      case None => default
    }
  }

  datatype Result<+T, +E> = Ok(value: T) | Err(error: E) {

    predicate IsFailure() {
      Err?
    }

    function PropagateFailure<U>(): Result<U, E>
      requires Err?
    {
      Err(error)
    }

    function Extract(): T
      requires Ok?
    {
      value
    }
  }
}
